=== FILE: README.md ===
# Invoice dialog controller, modelled in Dafny

BlueCollarGPT turns a spoken description of finished work into an invoice. Its
backend (`backend/index.js`) answers `POST /api/invoice` with one step of a
slot-filling dialog. Each request does the following:

- It finds the session for its key in the in-memory `conversationState` map, or
  starts a new session with a fresh invoice id.
- It asks a generation model either for clarifying questions or for a finished
  invoice.
- It acts on the reply in one of three ways: it stores the first batch of
  questions, it records the transcript as the answer to the current question, or,
  once the questions run out, it asks the model once more for the invoice and
  drops the session when the invoice comes back.

This project models that controller as a pure step over an immutable store:

- `Dialog.Turn(store, sessionId, transcript, env, reply, closing)` returns the
  new store, the response (`WaitingForInput`, `InvoiceReady` or `Failed(reason)`)
  and the prompts sent to the model.
- The two model calls are oracle inputs. `reply` is what the turn's call
  delivered. `closing` is what the finalisation call delivers if finalisation is
  reached. Each is `Unavailable` (the call threw), `Unparseable` (the content was
  not JSON) or `Parsed(v)`, where `v` is a JavaScript value with JavaScript
  truthiness.
- The clock, `Math.random()` and the key minted for a request without a session
  id come in through `Env`. In a dialog of several requests, each request carries
  its own `Env`.

Modules:

- `Wrappers`: `Option` and `Result`.
- `Text`: decimal rendering, `padStart`, `join`, and last-line splitting. Decimals
  and splits come with the reading that undoes them; `join` comes with where
  each element and each separator sits.
- `Json`: reply values, truthiness and property access.
- `Replies`: validation of the turn's reply and of the closing reply.
- `InvoiceIds`: `generateInvoiceId` and the time window, each with a parser.
- `Sessions`: the session record, the store and session lookup.
- `Prompts`: the user message of a turn and of finalisation, with a parser.
- `Dialog`: the turn itself.
- `TurnProperties`: what one turn guarantees.
- `Conversations`: whole dialogs made of successive turns.

The code keeps the fetched session object shared with the map. So the model
writes a mutated session back to the store exactly when the key was present at
lookup. A new session enters the store only when a question is returned
(`backend/index.js:239`).

Behaviour of the handler worth knowing:

- A failed finalisation does not delete the session. The stored session keeps
  the answer just recorded. A retry records one more answer and goes straight
  back to finalisation, so the question index grows past the number of questions
  (`TurnProperties.FailedRetryPassesQuestionCount`,
  `TurnProperties.ExhaustedSessionNeverAsks`).
- An empty `questions` array is accepted, because an empty array is truthy. On a
  first recording it goes straight to finalisation
  (`Replies.EmptyQuestionListAccepted`,
  `TurnProperties.EmptyQuestionListFinalisesAtOnce`).
- An empty transcript is not rejected.
- A reply rejected on a first recording leaves nothing in the store. The next
  request with that key therefore starts a new session with a newly drawn
  invoice id.
- The time window does not wrap at midnight: hour 23 gives `"23:00-24:30"`
  (`InvoiceIds.LateWindowEndsAtHour24`).

## Model

| member | source | states |
|---|---|---|
| Text.Decimal | backend/index.js:21-24 | `String(n)` of a natural number is a non-empty string of digits without a leading zero |
| Text.PadStart | backend/index.js:22-24 | `padStart` yields `max(len, width)` characters: the original string at the end, preceded only by fill characters |
| Text.PaddedDecimal | backend/index.js:22-24 | a number below 10^width, zero-padded to `width`, has exactly `width` digits that still denote the number |
| Text.JoinHoldsElement | backend/index.js:207 | `answers.join("\n")` contains every answer, unchanged and in order, at its computed offset |
| Text.JoinHoldsSeparator | backend/index.js:207 | `answers.join("\n")` holds exactly the separator between the end of each answer and the start of the next |
| Replies.Unwrap | backend/index.js:145 | a truthy `json` member of an object replaces the parsed value; anything else is kept as parsed; the result is falsy only when the parsed value was |
| Replies.Classify | backend/index.js:142-165 | the turn's reply is accepted exactly when it is an object (possibly under a truthy `json` member) typed "questions" with an array at `data.questions`, or typed "invoice"; each rejection has exactly one reason: a failed call, content that is not JSON or is `null`, a falsy unwrapped value, a falsy `type`, a "questions" reply without an array at `data.questions`, or any other `type` |
| Replies.Finalise | backend/index.js:223-234 | the closing reply succeeds exactly when it is an object whose `type` is "invoice", with no `json` unwrap, and yields its `data`; a failed call and content that is not JSON keep their own errors, and every other parsed reply is the invalid-invoice error |
| Replies.WrappedInvoiceOnlyAcceptedMidTurn | backend/index.js:145 | an invoice wrapped in `json` is accepted as a turn reply but refused as the closing reply |
| Replies.EmptyQuestionListAccepted | backend/index.js:162 | a questions reply with an empty array passes validation |
| Replies.Detail | backend/index.js:173-176 | only errors raised by the model client or by `JSON.parse` at finalisation lack a fixed detail text |
| InvoiceIds.ZeroPadded | backend/index.js:22-24 | a padded number is all digits and at least as wide as requested |
| InvoiceIds.InvoiceId | backend/index.js:19-25 | an invoice id starts with "INV-" and is a single line |
| InvoiceIds.IdLayoutParses | backend/index.js:25 | any id with the layout "INV-" year "-" MMDD "-" RRR reads back into its four numbers |
| InvoiceIds.InvoiceIdRoundTrip | backend/index.js:19-25 | for a month and day below 100 and a random value below 1000, the id is 13 characters longer than the year and gives back the year, 1-based month, day and random value |
| InvoiceIds.TimeWindow | backend/index.js:40 | the time window is a single line, so it can end a line of the prompt |
| InvoiceIds.TimeWindowRoundTrip | backend/index.js:39-40 | the time window reads back as a start hour and an end hour one more than the start, and is exactly as long as the two hours' decimal texts plus ":00-" and ":30", so neither hour has a leading zero |
| InvoiceIds.LateWindowEndsAtHour24 | backend/index.js:40 | the window for hour 23 is "23:00-24:30" |
| Prompts.ParsePromptRoundTrip | backend/index.js:117 | any prompt body followed by the block of fixed values reads back into the body, invoice id, date and window, when those three are single lines |
| Prompts.TurnPromptParses | backend/index.js:117 | a turn's prompt reads back into its body (the transcript, after the first transcript on later turns), the session's invoice id, the date and the window |
| Prompts.FinalPromptParses | backend/index.js:207-212 | the finalisation prompt reads back into the first transcript with the joined answers, the session's invoice id, the date and the window |
| Prompts.FinalPromptHoldsAnswers | backend/index.js:207-212 | every recorded answer appears whole, in order, after the first transcript in the finalisation prompt |
| Prompts.TurnBodyFramesTranscript | backend/index.js:117 | a turn's prompt body starts with the transcript on a first recording, otherwise with the stored first transcript, and always ends with the new transcript |
| Sessions.EffectiveKey | backend/index.js:33 | a non-empty session id is used as given; an absent or empty one is replaced by the minted key, so the key is never empty when the minted key is not |
| Sessions.Lookup | backend/index.js:43-49 | a stored key gives its stored session; any other key gives a first-recording session with the newly drawn invoice id, no fixed context, no answers and index 0; in a well-formed store, a session is first-recording exactly when its key was not stored |
| Dialog.Record | backend/index.js:179-201 | a first questions reply takes the transcript and the list and restarts the count; a later one appends the transcript as an answer and advances the index by one; the invoice id never changes |
| Dialog.Turn | backend/index.js:43-260 | a turn touches no other key; afterwards its key is stored exactly when the answer is a question, or when the key was stored and the answer is not an invoice; one or two prompts are sent |
| TurnProperties.TurnPreservesValidStore | backend/index.js:179-239 | every stored session stays past its first recording, with a non-empty question list, as many answers as the question index and a one-line invoice id |
| TurnProperties.RejectedReplyKeepsStore | backend/index.js:153-165 | a rejected reply is answered with its error and leaves the store unchanged |
| TurnProperties.InvoiceReplyRemovesKey | backend/index.js:252-256 | an invoice reply answers with its `data` and removes the key; a key that was never stored leaves the store as it was |
| TurnProperties.FinalisationReachedWhenExhausted | backend/index.js:204 | after a questions reply, the second model call happens exactly when the index has reached the number of questions |
| TurnProperties.FinalisationOutcome | backend/index.js:204-234 | finalisation sends the fixed context and all answers; it returns the invoice and deletes the key exactly when the closing reply is typed "invoice"; otherwise it fails and keeps a stored session with the new answer |
| TurnProperties.EmptyQuestionListFinalisesAtOnce | backend/index.js:204 | an empty list on a new session goes straight to finalisation and leaves the store unchanged |
| TurnProperties.WaitingForInputReportsStoredQuestion | backend/index.js:238-248 | a waiting answer names the key and stores the session; its question is `questions[idx]`, its number is `idx + 1`, which is the answers count plus one, and lies between 1 and the list length |
| TurnProperties.FreshSessionStart | backend/index.js:43-49 | a new key that gets a question is stored with the new invoice id, the transcript as fixed context, no answers, index 0 and question number 1 |
| TurnProperties.StoredSessionFrozen | backend/index.js:180-201 | a stored session's questions, fixed context and invoice id never change; its answers stay as they are or gain exactly the transcript |
| TurnProperties.LaterQuestionListsIgnored | backend/index.js:192-201 | on later turns, which question list the model returns makes no difference |
| TurnProperties.InvoiceIdNeverChanges | backend/index.js:43-49 | no turn changes the invoice id of a session that stays stored |
| TurnProperties.ClosingIgnoredWithoutFinalisation | backend/index.js:204-235 | the closing reply matters only when finalisation runs |
| TurnProperties.PromptsCarrySessionValues | backend/index.js:117-212 | the turn's prompt reads back into the turn body and the session's invoice id, UTC date and time window; when finalisation runs, its prompt reads back into the first transcript with every answer including the new one, and the same three values |
| TurnProperties.ExhaustedSessionNeverAsks | backend/index.js:194-204 | a stored session whose index has reached its question count never asks again |
| TurnProperties.FailedRetryPassesQuestionCount | backend/index.js:194-234 | a failed retry of finalisation keeps the session, with the index one higher and above the question count |
| TurnProperties.CompletedKeyStartsOver | backend/index.js:43-49 | after an invoice, the next request with the same key starts a new session with a new invoice id |
| Conversations.AnswerAsksNext | backend/index.js:194-248 | an answer that is not the last is recorded and brings the next question |
| Conversations.LastAnswerFinalises | backend/index.js:194-230 | the last answer is recorded, finalisation runs over all answers, and a successful closing reply removes the session |
| Conversations.AnsweringEveryQuestionCompletes | backend/index.js:179-239 | answering the remaining questions in order, each request with its own clock, brings questions numbered idx+2, idx+3, and so on, then the invoice built from the fixed context and every answer in order, stamped with the last request's date and window, with the key removed |
| Conversations.TracePreservesValidStore | backend/index.js:179-239 | across any sequence of requests on one key, each with its own clock and replies, every store passed through keeps every session well formed, with as many answers as the question index |
| Conversations.QuestionsReplyClassified | backend/index.js:162 | a well-formed questions object is accepted with its list |
| Conversations.InvoiceReplyFinalised | backend/index.js:224-229 | a well-formed invoice object is accepted at finalisation with its `data` |
| Conversations.FaucetDialog | backend/index.js:179-256 | with no session id and two questions, the first answer brings question 2 of 2 and the second ends with the invoice and an empty store |

## Left out

- The OpenAI/LiteLLM calls (`backend/index.js:129-134`, `216-221`) are network I/O. Their results are the `reply` and `closing` parameters.
- `JSON.parse` is not modelled: replies arrive already parsed, with `Unparseable` for content that is not JSON. A reply whose `content` is missing is therefore not distinguished from one that is not JSON.
- The system prompt wording (`backend/index.js:54-113`), the model name, the temperature and the response format are opaque inputs to the model. Only the user message is modelled.
- Express routing, CORS, HTTP status codes, `res.json` and `console.log` are plumbing.
- `Date`, `Math.random` and session-key minting (`backend/index.js:33`, `37-40`) come in through `Env`.
- The invoice id (`backend/index.js:20`) and the date and time window (`backend/index.js:37`) come from separate readings of the clock. The model uses one reading for both. The reading of `Date.now()` that goes into a minted key (`backend/index.js:33`) is part of the minted key parameter.
- The minted key is a parameter. If it collides with a stored key, the model resumes that session, as the code would.
- Interleaving of concurrent requests across the `await` points is out of scope: the model is sequential. So is the unbounded growth of the store.
- `sessionId` is modelled as an optional string. A non-string truthy `sessionId` (a number, say) is not modelled. Neither is a non-string `transcript`.
- JSON numbers are `real`, with no floating-point behaviour. Property lookups ignore the prototype chain, since the handler reads no inherited property.
- Text.Decimal: years are natural numbers, so a negative `getFullYear()` is not modelled.
- Replies.Detail: the detail text of a client exception or a `JSON.parse` error is the foreign message. It is not modelled.
- The frontend (`frontend/src/App.jsx`, `frontend/src/recorder.js`) and the PDF renderer (`backend/pdf.js`) are UI and rendering, not part of this model.

=== FILE: Conversations.dfy ===
/** Whole dialogs: successive requests that carry the same session key. */
module Conversations {
  import opened Wrappers
  import opened Json
  import opened Replies
  import opened InvoiceIds
  import opened Sessions
  import opened Prompts
  import opened Dialog
  import opened TurnProperties

  /** One request of a dialog: what it reads from the clock, its transcript, and the model's answers to it. */
  datatype Request = Request(env: Env, transcript: string, reply: Reply, closing: Reply)

  /** The steps of successive requests for session key `key`, each starting from the store the previous one left. */
  function Trace(store: Store, key: string, reqs: seq<Request>): (steps: seq<Step>)
    ensures |steps| == |reqs|
    decreases |reqs|
  {
    if reqs == [] then []
    else
      var first := Turn(store, Some(key), reqs[0].transcript, reqs[0].env, reqs[0].reply, reqs[0].closing);
      [first] + Trace(first.store, key, reqs[1..])
  }

  function Transcripts(reqs: seq<Request>): seq<string>
    decreases |reqs|
  {
    if reqs == [] then [] else [reqs[0].transcript] + Transcripts(reqs[1..])
  }

  /** Every turn's reply is a well-formed questions reply. */
  predicate AllQuestionReplies(reqs: seq<Request>) {
    forall i :: 0 <= i < |reqs| ==> Classify(reqs[i].reply).Ok? && Classify(reqs[i].reply).value.Questions?
  }

  /** An answer that is not the last: the session records it and the next question is asked. */
  lemma AnswerAsksNext(store: Store, key: string, req: Request)
    requires key != "" && key in store
    requires StoredSession(store[key]) && store[key].currentQuestionIndex + 1 < |store[key].questions|
    requires Classify(req.reply).Ok? && Classify(req.reply).value.Questions?
    ensures var s := store[key];
            var r := Turn(store, Some(key), req.transcript, req.env, req.reply, req.closing);
            var recorded := s.(answers := s.answers + [req.transcript], currentQuestionIndex := s.currentQuestionIndex + 1);
            && r.store == store[key := recorded]
            && r.response == WaitingForInput(key, s.questions, s.questions[s.currentQuestionIndex + 1], s.currentQuestionIndex + 2, |s.questions|)
            && StoredSession(recorded)
  {
  }

  /** The last answer: finalisation runs on every answer and, when it succeeds, the session is gone. */
  lemma LastAnswerFinalises(store: Store, key: string, req: Request)
    requires key != "" && key in store
    requires StoredSession(store[key]) && store[key].currentQuestionIndex + 1 == |store[key].questions|
    requires Classify(req.reply).Ok? && Classify(req.reply).value.Questions?
    requires Finalise(req.closing).Ok?
    ensures var s := store[key];
            var r := Turn(store, Some(key), req.transcript, req.env, req.reply, req.closing);
            var recorded := s.(answers := s.answers + [req.transcript], currentQuestionIndex := s.currentQuestionIndex + 1);
            && r.store == store - {key}
            && r.response == InvoiceReady(Finalise(req.closing).value)
            && |r.prompts| == 2
            && r.prompts[1] == FinalPrompt(recorded, req.env.utcDate, TimeWindow(req.env.clock.hour))
  {
  }

  /** Each answer but the last brings the next question of the session `s` the dialog started from. */
  predicate AsksInTurn(reqs: seq<Request>, s: Session, steps: seq<Step>)
    requires |steps| == |reqs| >= 1
  {
    forall i :: 0 <= i < |reqs| - 1 ==>
      && steps[i].response.WaitingForInput?
      && steps[i].response.questionNumber == s.currentQuestionIndex + i + 2
      && steps[i].response.totalQuestions == |s.questions|
  }

  /** The last answer ends the dialog: the closing invoice, the key removed, finalisation over all answers. */
  predicate EndsWithInvoice(store: Store, key: string, reqs: seq<Request>, s: Session, steps: seq<Step>)
    requires |steps| == |reqs| >= 1
  {
    var last := |reqs| - 1;
    && Finalise(reqs[last].closing).Ok?
    && steps[last].response == InvoiceReady(Finalise(reqs[last].closing).value)
    && steps[last].store == store - {key}
    && |steps[last].prompts| == 2
    && steps[last].prompts[1]
       == FinalPrompt(s.(answers := s.answers + Transcripts(reqs)), reqs[last].env.utcDate, TimeWindow(reqs[last].env.clock.hour))
  }

  /** What answering the remaining questions `reqs` of session `s` at `key` leads to. */
  predicate Completes(store: Store, key: string, reqs: seq<Request>, s: Session, steps: seq<Step>)
    requires |steps| == |reqs| >= 1
  {
    AsksInTurn(reqs, s, steps) && EndsWithInvoice(store, key, reqs, s, steps)
  }

  lemma LastAnswerCompletes(store: Store, key: string, reqs: seq<Request>)
    requires key != "" && key in store
    requires StoredSession(store[key]) && store[key].currentQuestionIndex + 1 == |store[key].questions|
    requires |reqs| == 1
    requires Classify(reqs[0].reply).Ok? && Classify(reqs[0].reply).value.Questions?
    requires Finalise(reqs[0].closing).Ok?
    ensures Completes(store, key, reqs, store[key], Trace(store, key, reqs))
  {
    var s := store[key];
    var req := reqs[0];
    var steps := Trace(store, key, reqs);
    assert steps == [Turn(store, Some(key), req.transcript, req.env, req.reply, req.closing)];
    assert Transcripts(reqs) == [req.transcript];
    LastAnswerFinalises(store, key, req);
  }

  /** The trace of a dialog is its first step followed by the trace from the store that step leaves. */
  lemma TraceUnfolds(store: Store, key: string, reqs: seq<Request>)
    requires |reqs| >= 1
    ensures var first := Turn(store, Some(key), reqs[0].transcript, reqs[0].env, reqs[0].reply, reqs[0].closing);
            Trace(store, key, reqs) == [first] + Trace(first.store, key, reqs[1..])
  {
  }

  lemma EarlierAnswerAsks(store: Store, key: string, reqs: seq<Request>, recorded: Session, steps: seq<Step>, rest: seq<Step>)
    requires key != "" && key in store && |reqs| >= 2
    requires |steps| == |reqs| && steps == [steps[0]] + rest
    requires store[key].currentQuestionIndex + 1 < |store[key].questions|
    requires steps[0].response == WaitingForInput(key, store[key].questions, store[key].questions[store[key].currentQuestionIndex + 1],
                                                  store[key].currentQuestionIndex + 2, |store[key].questions|)
    requires recorded.currentQuestionIndex == store[key].currentQuestionIndex + 1 && recorded.questions == store[key].questions
    requires AsksInTurn(reqs[1..], recorded, rest)
    ensures AsksInTurn(reqs, store[key], steps)
  {
    var s := store[key];
    forall i | 0 <= i < |reqs| - 1
      ensures steps[i].response.WaitingForInput?
      ensures steps[i].response.questionNumber == s.currentQuestionIndex + i + 2
      ensures steps[i].response.totalQuestions == |s.questions|
    {
      if i > 0 {
        assert steps[i] == rest[i - 1];
      }
    }
  }

  lemma EarlierAnswerEnds(store: Store, key: string, reqs: seq<Request>, first: Step, steps: seq<Step>, rest: seq<Step>)
    requires key != "" && key in store && |reqs| >= 2
    requires |rest| == |reqs| - 1 && steps == [first] + rest
    requires var s := store[key];
             first.store == store[key := s.(answers := s.answers + [reqs[0].transcript], currentQuestionIndex := s.currentQuestionIndex + 1)]
    requires EndsWithInvoice(first.store, key, reqs[1..], first.store[key], rest)
    ensures EndsWithInvoice(store, key, reqs, store[key], steps)
  {
    var s := store[key];
    var recorded := first.store[key];
    assert Transcripts(reqs) == [reqs[0].transcript] + Transcripts(reqs[1..]);
    assert recorded.answers + Transcripts(reqs[1..]) == s.answers + Transcripts(reqs);
    assert FinalBody(recorded.(answers := recorded.answers + Transcripts(reqs[1..])))
        == FinalBody(s.(answers := s.answers + Transcripts(reqs)));
    assert first.store - {key} == store - {key};
    assert reqs[1..][|reqs[1..]| - 1] == reqs[|reqs| - 1];
    assert steps[|reqs| - 1] == rest[|reqs| - 2];
  }

  /**
   Answering every remaining question of a stored session, in order, asks
   the next question after each answer but the last, then runs finalisation
   on the fixed context and all answers in order; a successful closing reply
   ends the dialog with that invoice and no trace of the session.
   */
  lemma {:induction false} AnsweringEveryQuestionCompletes(store: Store, key: string, reqs: seq<Request>)
    requires key != "" && key in store
    requires StoredSession(store[key]) && store[key].currentQuestionIndex < |store[key].questions|
    requires |reqs| == |store[key].questions| - store[key].currentQuestionIndex
    requires AllQuestionReplies(reqs)
    requires Finalise(reqs[|reqs| - 1].closing).Ok?
    ensures Completes(store, key, reqs, store[key], Trace(store, key, reqs))
    decreases |reqs|
  {
    if |reqs| == 1 {
      LastAnswerCompletes(store, key, reqs);
    } else {
      var req := reqs[0];
      var first := Turn(store, Some(key), req.transcript, req.env, req.reply, req.closing);
      AnswerAsksNext(store, key, req);
      assert AllQuestionReplies(reqs[1..]) by {
        forall i | 0 <= i < |reqs[1..]|
          ensures Classify(reqs[1..][i].reply).Ok? && Classify(reqs[1..][i].reply).value.Questions?
        {
          assert reqs[1..][i] == reqs[i + 1];
        }
      }
      assert reqs[1..][|reqs[1..]| - 1] == reqs[|reqs| - 1];
      AnsweringEveryQuestionCompletes(first.store, key, reqs[1..]);
      TraceUnfolds(store, key, reqs);
      var steps := Trace(store, key, reqs);
      var rest := Trace(first.store, key, reqs[1..]);
      EarlierAnswerAsks(store, key, reqs, first.store[key], steps, rest);
      EarlierAnswerEnds(store, key, reqs, first, steps, rest);
    }
  }

  /** Every store a dialog passes through keeps every session well formed: answers count equals question index throughout. */
  lemma {:induction false} TracePreservesValidStore(store: Store, key: string, reqs: seq<Request>)
    requires ValidStore(store)
    ensures var steps := Trace(store, key, reqs);
            forall i :: 0 <= i < |steps| ==> ValidStore(steps[i].store)
    decreases |reqs|
  {
    if reqs != [] {
      var req := reqs[0];
      var first := Turn(store, Some(key), req.transcript, req.env, req.reply, req.closing);
      TurnPreservesValidStore(store, Some(key), req.transcript, req.env, req.reply, req.closing);
      TraceUnfolds(store, key, reqs);
      TracePreservesValidStore(first.store, key, reqs[1..]);
      var steps := Trace(store, key, reqs);
      var rest := Trace(first.store, key, reqs[1..]);
      forall i | 0 <= i < |steps|
        ensures ValidStore(steps[i].store)
      {
        if i > 0 {
          assert steps[i] == rest[i - 1];
        }
      }
    }
  }

  /** A questions reply carrying `questions`. */
  function QuestionsReply(questions: seq<Value>): Reply {
    Parsed(Object(map["type" := Str("questions"), "data" := Object(map["questions" := Array(questions)])]))
  }

  /** An invoice reply carrying `data`. */
  function InvoiceReply(data: Value): Reply {
    Parsed(Object(map["type" := Str("invoice"), "data" := data]))
  }

  lemma QuestionsReplyClassified(questions: seq<Value>)
    ensures Classify(QuestionsReply(questions)) == Ok(Questions(questions))
  {
    var data := Object(map["questions" := Array(questions)]);
    var v := Object(map["type" := Str("questions"), "data" := data]);
    assert Get(v, "json") == None;
    assert Get(v, "type") == Some(Str("questions"));
    assert Get(v, "data") == Some(data);
    assert Get(data, "questions") == Some(Array(questions));
  }

  lemma InvoiceReplyFinalised(data: Value)
    ensures Finalise(InvoiceReply(data)) == Ok(Some(data))
  {
    var v := Object(map["type" := Str("invoice"), "data" := data]);
    assert Get(v, "type") == Some(Str("invoice"));
    assert Get(v, "data") == Some(data);
  }

  /**
   A leaking-faucet dialog: no session id, the model asks two questions;
   the first answer brings question 2 of 2; the second answer runs
   finalisation, which returns the invoice and removes the session.
   */
  lemma FaucetDialog(env: Env, invoice: Value)
    requires env.freshKey != ""
    ensures var q := [Str("How long did the job take?"), Str("Who is the client?")];
            var one := Turn(map[], None, "Fixed a leaking faucet", env, QuestionsReply(q), Unavailable);
            var two := Turn(one.store, Some(env.freshKey), "2 hours, used one washer kit", env, QuestionsReply(q), Unavailable);
            var three := Turn(two.store, Some(env.freshKey), "Client is Jane Doe, 123 Main St", env, QuestionsReply(q), InvoiceReply(invoice));
            && one.response == WaitingForInput(env.freshKey, q, q[0], 1, 2)
            && two.response == WaitingForInput(env.freshKey, q, q[1], 2, 2)
            && three.response == InvoiceReady(Some(invoice))
            && three.store == map[]
  {
    var q := [Str("How long did the job take?"), Str("Who is the client?")];
    QuestionsReplyClassified(q);
    InvoiceReplyFinalised(invoice);
  }
}

=== FILE: Dialog.dfy ===
/**
 One request to `/api/invoice` (backend/index.js:28-268) as a pure step over
 the session store. The two model calls are oracle inputs: `reply` is what
 the turn's call returned and `closing` what the finalisation call would
 return if finalisation is reached.
 */
module Dialog {
  import opened Wrappers
  import opened Json
  import opened Replies
  import opened InvoiceIds
  import opened Sessions
  import opened Prompts

  /** The three answers a request can get: a next question, an invoice, or an error. */
  datatype Response =
    | WaitingForInput(sessionId: string, questions: seq<Value>, currentQuestion: Value, questionNumber: nat, totalQuestions: nat)
    | InvoiceReady(data: Option<Value>)
    | Failed(reason: Reason)

  /** The store after the request, the answer, and the prompts sent to the model in order. */
  datatype Step = Step(store: Store, response: Response, prompts: seq<string>)

  /**
   A questions reply (backend/index.js:180-201): on the first recording the
   transcript and question list are taken and the count restarts; later the
   transcript is recorded as the next answer.
   */
  function Record(s: Session, transcript: string, questions: seq<Value>): (r: Session)
    ensures Counted(s) || s.isFirstRecording ==> Counted(r)
    ensures !r.isFirstRecording && r.invoiceId == s.invoiceId
    ensures s.isFirstRecording ==> r.questions == questions && r.previousTranscript == transcript && r.answers == []
    ensures !s.isFirstRecording ==> r.questions == s.questions && r.previousTranscript == s.previousTranscript
                                    && r.answers == s.answers + [transcript]
                                    && r.currentQuestionIndex == s.currentQuestionIndex + 1
  {
    if s.isFirstRecording then
      s.(isFirstRecording := false, previousTranscript := transcript, currentQuestionIndex := 0,
         answers := [], questions := questions)
    else
      s.(answers := s.answers + [transcript], currentQuestionIndex := s.currentQuestionIndex + 1)
  }

  /** The session a turn works on: the stored one, or a fresh one with the clock's invoice id. */
  function SessionOf(store: Store, sessionId: Option<string>, env: Env): Session {
    Lookup(store, EffectiveKey(sessionId, env.freshKey), env)
  }

  /** The session after a questions reply on this turn. */
  function Recorded(store: Store, sessionId: Option<string>, transcript: string, env: Env, questions: seq<Value>): Session {
    Record(SessionOf(store, sessionId, env), transcript, questions)
  }

  /** One request. */
  function Turn(store: Store, sessionId: Option<string>, transcript: string, env: Env, reply: Reply, closing: Reply): (r: Step)
    ensures var key := EffectiveKey(sessionId, env.freshKey);
            forall k :: k != key ==> (k in r.store <==> k in store) && (k in store ==> r.store[k] == store[k])
    ensures var key := EffectiveKey(sessionId, env.freshKey);
            key in r.store <==> r.response.WaitingForInput? || (key in store && !r.response.InvoiceReady?)
    ensures 1 <= |r.prompts| <= 2
  {
    var key := EffectiveKey(sessionId, env.freshKey);
    var session := Lookup(store, key, env);
    var window := TimeWindow(env.clock.hour);
    var prompt := TurnPrompt(session, transcript, env.utcDate, window);
    match Classify(reply)
    case Err(reason) => Step(store, Failed(reason), [prompt])
    case Ok(Invoice(data)) => Step(store - {key}, InvoiceReady(data), [prompt])
    case Ok(Questions(list)) =>
      var s := Record(session, transcript, list);
      if s.currentQuestionIndex >= |s.questions| then
        var finalPrompt := FinalPrompt(s, env.utcDate, window);
        match Finalise(closing)
        case Ok(data) => Step(store - {key}, InvoiceReady(data), [prompt, finalPrompt])
        // the session object is shared with the store, so a stored session keeps the recorded answer
        case Err(reason) => Step(if key in store then store[key := s] else store, Failed(reason), [prompt, finalPrompt])
      else
        var i := s.currentQuestionIndex;
        Step(store[key := s], WaitingForInput(key, s.questions, s.questions[i], i + 1, |s.questions|), [prompt])
  }
}

=== FILE: InvoiceIds.dfy ===
/**
 The identifiers and time strings the handler derives from the clock:
 `generateInvoiceId` (backend/index.js:19-25) and the time window
 (backend/index.js:39-40). The clock reading and `Math.random()` are
 parameters; each string comes with a parser that reads it back.
 */
module InvoiceIds {
  import opened Wrappers
  import opened Text

  /** The local-time fields of one clock reading: `getFullYear()`, `getMonth()` (0-based), `getDate()`, `getHours()`. */
  datatype Clock = Clock(year: nat, monthIndex: nat, day: nat, hour: nat)

  /** The numbers an invoice id carries: year, 1-based month, day of month, random suffix. */
  datatype IdParts = IdParts(year: nat, month: nat, day: nat, random: nat)

  /** `digits.padStart(width, '0')` over the decimal text of `n`. */
  function ZeroPadded(n: nat, width: nat): (r: string)
    ensures AllDigits(r)
    ensures |r| >= width
  {
    var d := Decimal(n);
    var r := PadStart(d, width, '0');
    assert forall i :: 0 <= i < |r| ==> IsDigit(r[i]) by {
      forall i | 0 <= i < |r|
        ensures IsDigit(r[i])
      {
        if i >= |r| - |d| {
          assert r[i] == r[|r| - |d|..][i - (|r| - |d|)];
        }
      }
    }
    r
  }

  /**
   `generateInvoiceId()`: "INV-", the year, "-", the zero-padded month and
   day, "-", and `random`, the value of `Math.floor(Math.random() * 1000)`,
   zero-padded to three digits.
   */
  function InvoiceId(clock: Clock, random: nat): (r: string)
    ensures StartsWith(r, "INV-")
    ensures '\n' !in r
  {
    var r := "INV-" + Decimal(clock.year) + "-" + ZeroPadded(clock.monthIndex + 1, 2)
      + ZeroPadded(clock.day, 2) + "-" + ZeroPadded(random, 3);
    assert r[..4] == "INV-";
    r
  }

  /**
   Reads an invoice id back: the text after the last dash is the three-digit
   random suffix, the text between the two last dashes holds the two-digit
   month and day, and what precedes is "INV-" and the year's digits.
   */
  function ParseInvoiceId(s: string): Option<IdParts> {
    match SplitLast(s, '-')
    case None => None
    case Some(outer) =>
      match SplitLast(outer.0, '-')
      case None => None
      case Some(inner) =>
        var (head, monthDay, suffix) := (inner.0, inner.1, outer.1);
        if !StartsWith(head, "INV-") || |head| == 4 || |monthDay| != 4 || |suffix| != 3
           || !AllDigits(head[4..]) || !AllDigits(monthDay) || !AllDigits(suffix)
        then None
        else
          assert AllDigits(monthDay[..2]) && AllDigits(monthDay[2..]);
          Some(IdParts(ValueOf(head[4..]), ValueOf(monthDay[..2]), ValueOf(monthDay[2..]), ValueOf(suffix)))
  }

  /** A digit string holds no dash. */
  lemma DigitsHaveNoDash(s: string)
    requires AllDigits(s)
    ensures '-' !in s
  {
  }

  /** The fixed layout is read back field by field, whatever the digits. */
  lemma IdLayoutParses(y: string, m: string, d: string, q: string)
    requires |y| >= 1 && |m| == 2 && |d| == 2 && |q| == 3
    requires AllDigits(y) && AllDigits(m) && AllDigits(d) && AllDigits(q)
    ensures ParseInvoiceId("INV-" + y + "-" + m + d + "-" + q) == Some(IdParts(ValueOf(y), ValueOf(m), ValueOf(d), ValueOf(q)))
  {
    var head := "INV-" + y;
    var md := m + d;
    var front := head + ['-'] + md;
    var s := "INV-" + y + "-" + m + d + "-" + q;
    assert s == front + ['-'] + q;
    assert AllDigits(md);
    DigitsHaveNoDash(q);
    DigitsHaveNoDash(md);
    SplitLastJoined(front, q, '-');
    SplitLastJoined(head, md, '-');
    assert SplitLast(s, '-') == Some((front, q));
    assert SplitLast(front, '-') == Some((head, md));
    assert StartsWith(head, "INV-") && head[4..] == y;
    assert md[..2] == m && md[2..] == d;
  }

  /**
   With a month and day of at most two digits and a random value below 1000
   (what `Math.floor(Math.random() * 1000)` yields), the id has the fixed
   layout "INV-YYYY-MMDD-RRR" and every number in it can be read back.
   */
  lemma {:induction false} InvoiceIdRoundTrip(clock: Clock, random: nat)
    requires clock.monthIndex + 1 < 100 && clock.day < 100 && random < 1000
    ensures |InvoiceId(clock, random)| == |Decimal(clock.year)| + 13
    ensures ParseInvoiceId(InvoiceId(clock, random)) == Some(IdParts(clock.year, clock.monthIndex + 1, clock.day, random))
  {
    var y := Decimal(clock.year);
    var m := ZeroPadded(clock.monthIndex + 1, 2);
    var d := ZeroPadded(clock.day, 2);
    var q := ZeroPadded(random, 3);
    PaddedDecimal(clock.monthIndex + 1, 2);
    PaddedDecimal(clock.day, 2);
    PaddedDecimal(random, 3);
    ValueOfDecimal(clock.year);
    assert InvoiceId(clock, random) == "INV-" + y + "-" + m + d + "-" + q;
    IdLayoutParses(y, m, d, q);
  }

  /** `${hour}:00-${hour + 1}:30`, the work window stamped on the invoice. */
  function TimeWindow(hour: nat): (r: string)
    ensures '\n' !in r
  {
    Decimal(hour) + ":00-" + Decimal(hour + 1) + ":30"
  }

  /** Reads a window "S:00-E:30" back into its start and end hours. */
  function ParseTimeWindow(s: string): Option<(nat, nat)> {
    match SplitLast(s, '-')
    case None => None
    case Some(parts) =>
      var (a, b) := parts;
      if |a| < 4 || |b| < 4 || a[|a| - 3..] != ":00" || b[|b| - 3..] != ":30"
         || !AllDigits(a[..|a| - 3]) || !AllDigits(b[..|b| - 3])
      then None
      else Some((ValueOf(a[..|a| - 3]), ValueOf(b[..|b| - 3])))
  }

  /** The window always ends one hour and thirty minutes after its start: the end hour is the start hour plus one. */
  lemma TimeWindowRoundTrip(hour: nat)
    ensures ParseTimeWindow(TimeWindow(hour)) == Some((hour, hour + 1))
    ensures |TimeWindow(hour)| == |Decimal(hour)| + |Decimal(hour + 1)| + 7
  {
    var a := Decimal(hour) + ":00";
    var b := Decimal(hour + 1) + ":30";
    assert TimeWindow(hour) == a + ['-'] + b;
    assert '-' !in b by {
      assert forall i :: 0 <= i < |b| - 3 ==> b[i] == Decimal(hour + 1)[i];
    }
    SplitLastJoined(a, b, '-');
    assert a[..|a| - 3] == Decimal(hour);
    assert b[..|b| - 3] == Decimal(hour + 1);
    ValueOfDecimal(hour);
    ValueOfDecimal(hour + 1);
  }

  /** No wrap at midnight: the window opened at 23 o'clock closes at "24:30". */
  lemma LateWindowEndsAtHour24()
    ensures TimeWindow(23) == "23:00-24:30"
  {
    assert Decimal(23) == "23";
    assert Decimal(24) == "24";
  }
}

=== FILE: Json.dfy ===
/**
 The parsed JSON a model reply carries, seen as the JavaScript value that
 `JSON.parse` produces, with the truthiness and property access the handler
 uses on it.
 */
module Json {
  import opened Wrappers

  datatype Value =
    | Null
    | Bool(b: bool)
    | Number(n: real)
    | Str(s: string)
    | Array(items: seq<Value>)
    | Object(fields: map<string, Value>)

  /** JavaScript truthiness: `null`, `false`, `0` and `""` are falsy; arrays and objects (even empty) are truthy. */
  predicate Truthy(v: Value) {
    match v
    case Null => false
    case Bool(b) => b
    case Number(n) => n != 0.0
    case Str(s) => s != ""
    case Array(_) => true
    case Object(_) => true
  }

  /** Truthiness of a value that may be `undefined` (`None`). */
  predicate Present(o: Option<Value>) {
    o.Some? && Truthy(o.value)
  }

  /**
   Property access `v.key` on a non-null value. Only objects carry the
   properties the handler reads (`json`, `type`, `data`, `questions`);
   on any other value the access yields `undefined`.
   */
  function Get(v: Value, key: string): (r: Option<Value>)
    ensures r.Some? <==> v.Object? && key in v.fields
  {
    if v.Object? && key in v.fields then Some(v.fields[key]) else None
  }
}

=== FILE: Prompts.dfy ===
/**
 The user message the handler sends to the generation model: on every turn
 (backend/index.js:117) and at finalisation (backend/index.js:207-212). Each
 is a body followed by the same block of fixed invoice values; `ParsePrompt`
 reads both back.
 */
module Prompts {
  import opened Wrappers
  import opened Text
  import opened Sessions

  const ValuesHeader := "Use these values for the invoice:"
  const IdLabel := "- invoiceId: "
  const DateLabel := "- date: "
  const WindowLabel := "- timeWindow: "
  const AnswersHeader := "\n\nAnswers to previous questions:\n"
  const FinalAnswersHeader := "\n\nAnswers:\n"

  /** `rest`, then a new line holding `tag` and `value`. */
  function Labelled(rest: string, tag: string, value: string): string {
    rest + "\n" + tag + value
  }

  /** A prompt body followed by the block of fixed invoice values, one value per line. */
  function WithValues(body: string, invoiceId: string, date: string, window: string): string {
    var header := body + "\n\n" + ValuesHeader;
    Labelled(Labelled(Labelled(header, IdLabel, invoiceId), DateLabel, date), WindowLabel, window)
  }

  /** The body of a turn's prompt: the transcript alone on the first recording, otherwise after the first transcript. */
  function TurnBody(s: Session, transcript: string): string {
    if s.isFirstRecording then transcript else s.previousTranscript + AnswersHeader + transcript
  }

  /** The turn's prompt (backend/index.js:117). */
  function TurnPrompt(s: Session, transcript: string, date: string, window: string): string {
    WithValues(TurnBody(s, transcript), s.invoiceId, date, window)
  }

  /** The body of the finalisation prompt: the first transcript, then every answer on its own line. */
  function FinalBody(s: Session): string {
    s.previousTranscript + FinalAnswersHeader + Join(s.answers, "\n")
  }

  /** The finalisation prompt (backend/index.js:207-212). */
  function FinalPrompt(s: Session, date: string, window: string): string {
    WithValues(FinalBody(s), s.invoiceId, date, window)
  }

  datatype PromptParts = PromptParts(body: string, invoiceId: string, date: string, window: string)

  /** The line after the last newline, if it starts with `tag`: the rest of the text and the labelled value. */
  function LastLabelled(s: string, tag: string): Option<(string, string)> {
    match SplitLast(s, '\n')
    case None => None
    case Some(parts) =>
      if StartsWith(parts.1, tag) then Some((parts.0, parts.1[|tag|..])) else None
  }

  /** Reads a prompt back into its body and the three values of its closing block, from the last line upwards. */
  function ParsePrompt(p: string): Option<PromptParts> {
    match LastLabelled(p, WindowLabel)
    case None => None
    case Some(w) =>
      match LastLabelled(w.0, DateLabel)
      case None => None
      case Some(d) =>
        match LastLabelled(d.0, IdLabel)
        case None => None
        case Some(i) =>
          match SplitLast(i.0, '\n')
          case None => None
          case Some(h) =>
            if h.1 != ValuesHeader || |h.0| == 0 || h.0[|h.0| - 1] != '\n' then None
            else Some(PromptParts(h.0[..|h.0| - 1], i.1, d.1, w.1))
  }

  lemma LastLabelledJoined(rest: string, tag: string, value: string)
    requires '\n' !in tag && '\n' !in value
    ensures LastLabelled(Labelled(rest, tag, value), tag) == Some((rest, value))
  {
    assert '\n' !in tag + value by {
      assert forall i :: 0 <= i < |tag + value| ==> (tag + value)[i] == if i < |tag| then tag[i] else value[i - |tag|];
    }
    assert Labelled(rest, tag, value) == rest + ['\n'] + (tag + value);
    SplitLastJoined(rest, tag + value, '\n');
    assert (tag + value)[|tag|..] == value;
  }

  /**
   Whatever the body, a prompt gives back its body, invoice id, date and
   window, as long as the three values are single lines.
   */
  lemma ParsePromptRoundTrip(body: string, invoiceId: string, date: string, window: string)
    requires '\n' !in invoiceId && '\n' !in date && '\n' !in window
    ensures ParsePrompt(WithValues(body, invoiceId, date, window)) == Some(PromptParts(body, invoiceId, date, window))
  {
    var header := body + "\n\n" + ValuesHeader;
    var withId := Labelled(header, IdLabel, invoiceId);
    var withDate := Labelled(withId, DateLabel, date);
    FixedTextsSingleLine();
    LastLabelledJoined(withDate, WindowLabel, window);
    LastLabelledJoined(withId, DateLabel, date);
    LastLabelledJoined(header, IdLabel, invoiceId);
    HeaderSplits(body, ValuesHeader);
  }

  lemma FixedTextsSingleLine()
    ensures '\n' !in ValuesHeader && '\n' !in IdLabel && '\n' !in DateLabel && '\n' !in WindowLabel
  {
  }

  /** A last line after a blank line splits off from the text before it, keeping one line break there. */
  lemma HeaderSplits(body: string, header: string)
    requires '\n' !in header
    ensures SplitLast(body + "\n\n" + header, '\n') == Some((body + "\n", header))
    ensures (body + "\n")[..|body|] == body
  {
    assert body + "\n\n" == (body + "\n") + ['\n'];
    SplitLastJoined(body + "\n", header, '\n');
  }

  /** A prompt begins with its body. */
  lemma WithValuesKeepsBody(body: string, invoiceId: string, date: string, window: string)
    ensures var p := WithValues(body, invoiceId, date, window);
            |body| <= |p| && p[..|body|] == body
  {
    var header := body + "\n\n" + ValuesHeader;
    var withId := Labelled(header, IdLabel, invoiceId);
    var withDate := Labelled(withId, DateLabel, date);
    var p := Labelled(withDate, WindowLabel, window);
    assert header[..|body|] == body;
    assert withId[..|header|] == header;
    assert withDate[..|withId|] == withId;
    assert p[..|withDate|] == withDate;
  }

  /**
   A turn's prompt reads back into its body (the transcript, after the first
   transcript on later turns) and the session's invoice id, the date and the
   window, when those three are single lines.
   */
  lemma TurnPromptParses(s: Session, transcript: string, date: string, window: string)
    requires '\n' !in s.invoiceId && '\n' !in date && '\n' !in window
    ensures ParsePrompt(TurnPrompt(s, transcript, date, window))
         == Some(PromptParts(TurnBody(s, transcript), s.invoiceId, date, window))
  {
    ParsePromptRoundTrip(TurnBody(s, transcript), s.invoiceId, date, window);
  }

  /**
   The finalisation prompt reads back into the first transcript with every
   answer, and the session's invoice id, the date and the window, when those
   three are single lines.
   */
  lemma FinalPromptParses(s: Session, date: string, window: string)
    requires '\n' !in s.invoiceId && '\n' !in date && '\n' !in window
    ensures ParsePrompt(FinalPrompt(s, date, window)) == Some(PromptParts(FinalBody(s), s.invoiceId, date, window))
  {
    ParsePromptRoundTrip(FinalBody(s), s.invoiceId, date, window);
  }

  /**
   Each answer appears whole, in recording order, in the finalisation
   prompt: answer `i` starts after the first transcript, the answers header
   and the earlier answers with their line breaks.
   */
  lemma FinalPromptHoldsAnswers(s: Session, date: string, window: string, i: nat)
    requires i < |s.answers|
    ensures var at := |s.previousTranscript| + |FinalAnswersHeader| + Offset(s.answers, "\n", i);
            var p := FinalPrompt(s, date, window);
            at + |s.answers[i]| <= |p| && p[at..at + |s.answers[i]|] == s.answers[i]
  {
    JoinHoldsElement(s.answers, "\n", i);
    AnswerInPrompt(s.previousTranscript, Join(s.answers, "\n"), s.invoiceId, date, window,
                   Offset(s.answers, "\n", i), s.answers[i]);
    FinalPromptLayout(s, date, window);
  }

  lemma FinalPromptLayout(s: Session, date: string, window: string)
    ensures FinalPrompt(s, date, window)
         == WithValues(s.previousTranscript + FinalAnswersHeader + Join(s.answers, "\n"), s.invoiceId, date, window)
  {
  }

  /** Text found in the joined answers is found in the finalisation prompt after the first transcript and the header. */
  lemma AnswerInPrompt(previous: string, joined: string, invoiceId: string, date: string, window: string, k: nat, x: string)
    requires k + |x| <= |joined| && joined[k..k + |x|] == x
    ensures var at := |previous| + |FinalAnswersHeader| + k;
            var p := WithValues(previous + FinalAnswersHeader + joined, invoiceId, date, window);
            at + |x| <= |p| && p[at..at + |x|] == x
  {
    var head := previous + FinalAnswersHeader;
    SliceOfSecond(head, joined, k, |x|);
    BodySliceInPrompt(head + joined, invoiceId, date, window, |head| + k, |x|);
  }

  /** Any slice of a prompt's body is found at the same place in the prompt. */
  lemma BodySliceInPrompt(body: string, invoiceId: string, date: string, window: string, k: nat, n: nat)
    requires k + n <= |body|
    ensures var p := WithValues(body, invoiceId, date, window);
            k + n <= |p| && p[k..k + n] == body[k..k + n]
  {
    WithValuesKeepsBody(body, invoiceId, date, window);
    SliceWithinPrefix(WithValues(body, invoiceId, date, window), body, k, n);
  }

  /** On later turns the prompt begins with the first transcript and ends its body with the new one. */
  lemma TurnBodyFramesTranscript(s: Session, transcript: string)
    ensures StartsWith(TurnBody(s, transcript), if s.isFirstRecording then transcript else s.previousTranscript)
    ensures var b := TurnBody(s, transcript); |transcript| <= |b| && b[|b| - |transcript|..] == transcript
  {
  }
}

=== FILE: Replies.dfy ===
/**
 How the invoice handler reads the generation model's replies
 (backend/index.js:136-176 for the turn's reply, 223-234 for the closing
 reply of finalisation). The network call itself is not modelled: its result
 arrives as a `Reply`.
 */
module Replies {
  import opened Wrappers
  import opened Json

  /** What one model call delivered: the call threw, the content was not JSON, or the parsed JSON. */
  datatype Reply = Unavailable | Unparseable | Parsed(value: Value)

  /**
   Every reason the handler answers with an error (HTTP 500) instead of a
   question or an invoice; `Detail` gives the text each one reports.
   */
  datatype Reason =
    | UpstreamUnavailable
    | InvalidJson
    | EmptyResponse
    | MissingType
    | InvalidQuestions
    | InvalidResponseType
    | InvoiceUnparseable
    | InvalidInvoice

  /** The two kinds of reply the dialog acts on. */
  datatype Outcome = Questions(list: seq<Value>) | Invoice(data: Option<Value>)

  /** `parsed.json || parsed`: a truthy `json` member replaces the parsed value. */
  function Unwrap(parsed: Value): (r: Value)
    ensures parsed.Object? && "json" in parsed.fields && Truthy(parsed.fields["json"]) ==> r == parsed.fields["json"]
    ensures !(parsed.Object? && "json" in parsed.fields && Truthy(parsed.fields["json"])) ==> r == parsed
    ensures Truthy(r) <==> Truthy(parsed) || r != parsed
  {
    var j := Get(parsed, "json");
    if Present(j) then j.value else parsed
  }

  /** The turn's reply, checked in the handler's order (backend/index.js:142-165, 179, 252, 257-259). */
  function Classify(reply: Reply): (r: Result<Outcome, Reason>)
    ensures r.Ok? <==> Shape(reply).Some?
    ensures r.Ok? ==> r.value == Shape(reply).value
    ensures r == Err(UpstreamUnavailable) <==> reply.Unavailable?
    ensures r == Err(InvalidJson) <==> reply.Unparseable? || reply == Parsed(Null)
    ensures r == Err(EmptyResponse) <==> reply.Parsed? && reply.value != Null && !Truthy(Unwrap(reply.value))
    ensures r == Err(MissingType) <==>
              reply.Parsed? && Truthy(Unwrap(reply.value)) && !Present(Get(Unwrap(reply.value), "type"))
    ensures r == Err(InvalidQuestions) <==>
              reply.Parsed? && Get(Unwrap(reply.value), "type") == Some(Str("questions")) && Shape(reply).None?
    ensures r == Err(InvalidResponseType) <==>
              && reply.Parsed?
              && Present(Get(Unwrap(reply.value), "type"))
              && Get(Unwrap(reply.value), "type") != Some(Str("questions"))
              && Get(Unwrap(reply.value), "type") != Some(Str("invoice"))
    ensures r.Err? ==> r.error !in {InvoiceUnparseable, InvalidInvoice}
  {
    match reply
    case Unavailable => Err(UpstreamUnavailable)
    case Unparseable => Err(InvalidJson)
    case Parsed(parsed) =>
      // reading `parsed.json` on `null` throws inside the parsing block
      if parsed.Null? then Err(InvalidJson)
      else
        var result := Unwrap(parsed);
        var kind := Get(result, "type");
        if !Truthy(result) then Err(EmptyResponse)
        else if !Present(kind) then Err(MissingType)
        else if kind == Some(Str("questions")) && !QuestionsListed(result) then Err(InvalidQuestions)
        else if kind == Some(Str("questions")) then Ok(Questions(Get(Get(result, "data").value, "questions").value.items))
        else if kind == Some(Str("invoice")) then Ok(Invoice(Get(result, "data")))
        else Err(InvalidResponseType)
  }

  /** `result.data && result.data.questions && Array.isArray(result.data.questions)` */
  predicate QuestionsListed(result: Value) {
    var data := Get(result, "data");
    Present(data) && Present(Get(data.value, "questions")) && Get(data.value, "questions").value.Array?
  }

  /**
   The structural reading of a well-formed turn reply, stated without
   truthiness: an object (possibly under a `json` member) whose `type` is the
   string "questions" with an array at `data.questions`, or whose `type` is
   the string "invoice".
   */
  function Shape(reply: Reply): Option<Outcome> {
    if !reply.Parsed? then None
    else
      match Unwrap(reply.value)
      case Object(m) =>
        if "type" in m && m["type"] == Str("questions") then
          if "data" in m && m["data"].Object? && "questions" in m["data"].fields && m["data"].fields["questions"].Array?
          then Some(Questions(m["data"].fields["questions"].items))
          else None
        else if "type" in m && m["type"] == Str("invoice") then
          Some(Invoice(if "data" in m then Some(m["data"]) else None))
        else None
      case _ => None
  }

  /** The closing reply of finalisation (backend/index.js:224-230): parsed as is, it must have `type == "invoice"`. */
  function Finalise(reply: Reply): (r: Result<Option<Value>, Reason>)
    ensures r.Ok? <==> reply.Parsed? && reply.value.Object? && Get(reply.value, "type") == Some(Str("invoice"))
    ensures r.Ok? ==> r.value == Get(reply.value, "data")
    ensures r == Err(UpstreamUnavailable) <==> reply.Unavailable?
    ensures r == Err(InvoiceUnparseable) <==> reply.Unparseable?
    ensures r == Err(InvalidInvoice) <==>
              reply.Parsed? && !(reply.value.Object? && Get(reply.value, "type") == Some(Str("invoice")))
  {
    match reply
    case Unavailable => Err(UpstreamUnavailable)
    case Unparseable => Err(InvoiceUnparseable)
    case Parsed(result) =>
      if !Truthy(result) || !Present(Get(result, "type")) || Get(result, "type") != Some(Str("invoice"))
      then Err(InvalidInvoice)
      else Ok(Get(result, "data"))
  }

  /**
   The closing reply is not unwrapped from a `json` member, unlike the turn's
   reply: the same wrapped invoice is accepted on a turn and refused at
   finalisation.
   */
  lemma WrappedInvoiceOnlyAcceptedMidTurn()
    ensures var wrapped := Parsed(Object(map["json" := Object(map["type" := Str("invoice")])]));
            Classify(wrapped) == Ok(Invoice(None)) && Finalise(wrapped) == Err(InvalidInvoice)
  {
    var inner := Object(map["type" := Str("invoice")]);
    var outer := Object(map["json" := inner]);
    assert Get(outer, "json") == Some(inner);
    assert Unwrap(outer) == inner;
    assert Get(outer, "type") == None;
  }

  /** An empty question list passes validation: an empty array is truthy. */
  lemma EmptyQuestionListAccepted()
    ensures Classify(Parsed(Object(map["type" := Str("questions"), "data" := Object(map["questions" := Array([])])]))) == Ok(Questions([]))
  {
    var data := Object(map["questions" := Array([])]);
    var v := Object(map["type" := Str("questions"), "data" := data]);
    assert Get(v, "json") == None;
    assert Get(v, "type") == Some(Str("questions"));
    assert Get(v, "data") == Some(data);
    assert Get(data, "questions") == Some(Array([]));
  }

  /** The `details` text of the error response, for the reasons whose text the handler fixes itself. */
  function Detail(reason: Reason): (r: Option<string>)
    ensures r.None? <==> reason in {UpstreamUnavailable, InvoiceUnparseable}
  {
    match reason
    case UpstreamUnavailable => None
    case InvalidJson => Some("Failed to process model response: Invalid JSON response from model")
    case EmptyResponse => Some("Failed to process model response: Empty response from model")
    case MissingType => Some("Failed to process model response: Response missing type field")
    case InvalidQuestions => Some("Failed to process model response: Invalid questions response format")
    case InvalidResponseType => Some("Invalid response type from model")
    case InvoiceUnparseable => None
    case InvalidInvoice => Some("Failed to generate invoice: Invalid invoice response format")
  }
}

=== FILE: Sessions.dfy ===
/**
 The per-session state the invoice handler keeps between requests
 (backend/index.js:15-16 and 42-49) and how a request finds its session.
 */
module Sessions {
  import opened Wrappers
  import opened Json
  import opened InvoiceIds

  /**
   One dialog's state. `questions` is undefined in the code until the first
   questions reply sets it; here it starts as the empty list, which the code
   never reads before that point.
   */
  datatype Session = Session(
    invoiceId: string,
    previousTranscript: string,
    currentQuestionIndex: nat,
    answers: seq<string>,
    isFirstRecording: bool,
    questions: seq<Value>)

  /** `conversationState`: session key to session. */
  type Store = map<string, Session>

  /**
   What one request reads from its surroundings: the key `session_<time>_<random>`
   it would mint, the local clock fields, the value of
   `Math.floor(Math.random() * 1000)` for a new invoice id, and the UTC
   calendar date of `toISOString()`.
   */
  datatype Env = Env(freshKey: string, clock: Clock, random: nat, utcDate: string)

  /** The session created for a key the store does not hold (backend/index.js:43-49). */
  function FreshSession(invoiceId: string): Session {
    Session(invoiceId, "", 0, [], true, [])
  }

  /** `sessionId || <minted key>`: an absent or empty session id gives the minted key. */
  function EffectiveKey(sessionId: Option<string>, freshKey: string): (r: string)
    ensures sessionId.Some? && sessionId.value != "" ==> r == sessionId.value
    ensures sessionId.None? || sessionId.value == "" ==> r == freshKey
    ensures freshKey != "" ==> r != ""
  {
    if sessionId.Some? && sessionId.value != "" then sessionId.value else freshKey
  }

  /** `conversationState.get(key) || { ... }`: the stored session itself, or a new one with a new invoice id. */
  function Lookup(store: Store, key: string, env: Env): (r: Session)
    ensures key in store ==> r == store[key]
    ensures key !in store ==>
              && r.invoiceId == InvoiceId(env.clock, env.random)
              && r.previousTranscript == ""
              && r.currentQuestionIndex == 0
              && r.answers == []
              && r.isFirstRecording
    ensures ValidStore(store) ==> (r.isFirstRecording <==> key !in store)
    ensures ValidStore(store) ==> Counted(r) && '\n' !in r.invoiceId
  {
    if key in store then store[key] else FreshSession(InvoiceId(env.clock, env.random))
  }

  /** Answers recorded so far match the position in the question list. */
  predicate Counted(s: Session) {
    |s.answers| == s.currentQuestionIndex
  }

  /**
   What holds of every session the handler leaves in the store: it is past
   its first recording, has a non-empty question list, one answer per
   advance of the index, and an invoice id on one line.
   */
  predicate StoredSession(s: Session) {
    && !s.isFirstRecording
    && |s.questions| > 0
    && Counted(s)
    && '\n' !in s.invoiceId
  }

  predicate ValidStore(store: Store) {
    forall key :: key in store ==> StoredSession(store[key])
  }
}

=== FILE: Text.dfy ===
/**
 String helpers the invoice handler relies on: decimal rendering of numbers
 (`String(n)`), `padStart`, `Array.prototype.join`, and a last-line splitter
 used to read a prompt back. Decimals and splits come with the reading that
 undoes them; a join comes with where each element and separator sits.
 */
module Text {
  import opened Wrappers

  predicate IsDigit(c: char) {
    '0' <= c <= '9'
  }

  predicate AllDigits(s: string) {
    forall i :: 0 <= i < |s| ==> IsDigit(s[i])
  }

  function DigitChar(d: nat): (c: char)
    requires d < 10
    ensures IsDigit(c)
  {
    ('0' as int + d) as char
  }

  function DigitValue(c: char): (d: nat)
    requires IsDigit(c)
    ensures d < 10
  {
    c as int - '0' as int
  }

  function Pow10(k: nat): (p: nat)
    ensures p >= 1
  {
    if k == 0 then 1 else 10 * Pow10(k - 1)
  }

  /** The decimal text of `n`, without leading zeros, as `String(n)` renders a non-negative integer. */
  function Decimal(n: nat): (s: string)
    ensures |s| >= 1 && AllDigits(s)
    ensures |s| > 1 ==> s[0] != '0'
  {
    if n < 10 then [DigitChar(n)] else Decimal(n / 10) + [DigitChar(n % 10)]
  }

  /** The number a string of decimal digits denotes; leading zeros are allowed. */
  function ValueOf(s: string): nat
    requires AllDigits(s)
  {
    if s == [] then 0 else ValueOf(s[..|s| - 1]) * 10 + DigitValue(s[|s| - 1])
  }

  /** Reading back the decimal text of a number yields that number. */
  lemma {:induction false} ValueOfDecimal(n: nat)
    ensures ValueOf(Decimal(n)) == n
  {
    if n >= 10 {
      var s := Decimal(n);
      assert s[..|s| - 1] == Decimal(n / 10);
      ValueOfDecimal(n / 10);
    }
  }

  /** A number below 10^k has at most k decimal digits. */
  lemma {:induction false} DecimalLength(n: nat, k: nat)
    requires 1 <= k && n < Pow10(k)
    ensures |Decimal(n)| <= k
  {
    if n >= 10 {
      assert k >= 2;
      DecimalLength(n / 10, k - 1);
    }
  }

  function Repeat(c: char, k: nat): (s: string)
    ensures |s| == k
    ensures forall i :: 0 <= i < k ==> s[i] == c
  {
    if k == 0 then [] else [c] + Repeat(c, k - 1)
  }

  /** `s.padStart(width, fill)` for a one-character fill. */
  function PadStart(s: string, width: nat, fill: char): (r: string)
    ensures |r| == if |s| >= width then |s| else width
    ensures r[|r| - |s|..] == s
    ensures forall i :: 0 <= i < |r| - |s| ==> r[i] == fill
  {
    if |s| >= width then s else Repeat(fill, width - |s|) + s
  }

  /** Leading zeros do not change the value of a digit string. */
  lemma {:induction false} ValueOfLeadingZeros(k: nat, s: string)
    requires AllDigits(s)
    ensures AllDigits(Repeat('0', k) + s)
    ensures ValueOf(Repeat('0', k) + s) == ValueOf(s)
  {
    var z := Repeat('0', k);
    if s == [] {
      assert z + s == z;
      ZerosValue(k);
    } else {
      var init := s[..|s| - 1];
      assert (z + s)[..|z + s| - 1] == z + init;
      ValueOfLeadingZeros(k, init);
    }
  }

  lemma {:induction false} ZerosValue(k: nat)
    ensures AllDigits(Repeat('0', k))
    ensures ValueOf(Repeat('0', k)) == 0
  {
    if k > 0 {
      var z := Repeat('0', k);
      assert z[..k - 1] == Repeat('0', k - 1);
      ZerosValue(k - 1);
    }
  }

  /**
   Zero-padding the decimal text of a number below 10^width gives exactly
   `width` digits that still denote the number.
   */
  lemma {:induction false} PaddedDecimal(n: nat, width: nat)
    requires 1 <= width && n < Pow10(width)
    ensures |PadStart(Decimal(n), width, '0')| == width
    ensures AllDigits(PadStart(Decimal(n), width, '0'))
    ensures ValueOf(PadStart(Decimal(n), width, '0')) == n
  {
    var d := Decimal(n);
    DecimalLength(n, width);
    ValueOfDecimal(n);
    if |d| < width {
      assert PadStart(d, width, '0') == Repeat('0', width - |d|) + d;
      ValueOfLeadingZeros(width - |d|, d);
    } else {
      assert PadStart(d, width, '0') == d;
    }
  }

  /** `xs.join(sep)`: the elements in order with `sep` between neighbours. */
  function Join(xs: seq<string>, sep: string): string
  {
    if |xs| == 0 then ""
    else if |xs| == 1 then xs[0]
    else Join(xs[..|xs| - 1], sep) + sep + xs[|xs| - 1]
  }

  /** Where element `i` starts in `Join(xs, sep)`: every earlier element and one separator after each. */
  function Offset(xs: seq<string>, sep: string, i: nat): nat
    requires i <= |xs|
  {
    if i == 0 then 0 else Offset(xs, sep, i - 1) + |xs[i - 1]| + |sep|
  }

  lemma {:induction false} OffsetOfPrefix(xs: seq<string>, sep: string, n: nat, i: nat)
    requires i <= n <= |xs|
    ensures Offset(xs[..n], sep, i) == Offset(xs, sep, i)
  {
    if i > 0 {
      OffsetOfPrefix(xs, sep, n, i - 1);
    }
  }

  /** The joined text is as long as all elements plus one separator between each neighbouring pair. */
  lemma {:induction false} JoinLength(xs: seq<string>, sep: string)
    requires |xs| >= 1
    ensures |Join(xs, sep)| + |sep| == Offset(xs, sep, |xs|)
  {
    if |xs| > 1 {
      var init := xs[..|xs| - 1];
      JoinLength(init, sep);
      OffsetOfPrefix(xs, sep, |xs| - 1, |xs| - 1);
    }
  }

  /** A slice inside the second part of a concatenation is the same slice of that part. */
  lemma SliceOfSecond(a: string, b: string, k: nat, n: nat)
    requires k + n <= |b|
    ensures |a| + k + n <= |a + b| && (a + b)[|a| + k..|a| + k + n] == b[k..k + n]
  {
    var s := a + b;
    assert forall u :: |a| + k <= u < |a| + k + n ==> s[u] == b[u - |a|];
  }

  /** A slice inside a prefix of `p` is the same slice of that prefix. */
  lemma SliceWithinPrefix(p: string, q: string, k: nat, n: nat)
    requires |q| <= |p| && p[..|q|] == q && k + n <= |q|
    ensures p[k..k + n] == q[k..k + n]
  {
    assert forall u :: k <= u < k + n ==> p[u] == p[..|q|][u];
  }

  /** Every element appears, unchanged and in order, at its offset in the joined text. */
  lemma {:induction false} JoinHoldsElement(xs: seq<string>, sep: string, i: nat)
    requires i < |xs|
    ensures Offset(xs, sep, i) + |xs[i]| <= |Join(xs, sep)|
    ensures Join(xs, sep)[Offset(xs, sep, i)..Offset(xs, sep, i) + |xs[i]|] == xs[i]
  {
    if |xs| > 1 {
      var init := xs[..|xs| - 1];
      var j := Join(init, sep);
      var last := xs[|xs| - 1];
      assert Join(xs, sep) == j + sep + last;
      if i < |xs| - 1 {
        JoinHoldsElement(init, sep, i);
        OffsetOfPrefix(xs, sep, |xs| - 1, i);
        assert init[i] == xs[i];
        assert Offset(init, sep, i) == Offset(xs, sep, i);
        assert j[Offset(xs, sep, i)..Offset(xs, sep, i) + |xs[i]|] == xs[i];
        FoundBeforeSeparator(j, sep, last, Offset(xs, sep, i), xs[i]);
      } else {
        JoinLength(init, sep);
        OffsetOfPrefix(xs, sep, |xs| - 1, |xs| - 1);
        assert Offset(xs, sep, i) == |j| + |sep|;
        FoundAfterSeparator(j, sep, last);
      }
    }
  }

  lemma FoundBeforeSeparator(j: string, sep: string, last: string, o: nat, x: string)
    requires o + |x| <= |j| && j[o..o + |x|] == x
    ensures o + |x| <= |j + sep + last| && (j + sep + last)[o..o + |x|] == x
  {
    assert (j + sep + last)[..|j|] == j;
    SliceWithinPrefix(j + sep + last, j, o, |x|);
  }

  /** Between neighbouring elements of the joined text sits exactly the separator. */
  lemma {:induction false} JoinHoldsSeparator(xs: seq<string>, sep: string, i: nat)
    requires i + 1 < |xs|
    ensures Offset(xs, sep, i) + |xs[i]| + |sep| <= |Join(xs, sep)|
    ensures Join(xs, sep)[Offset(xs, sep, i) + |xs[i]|..Offset(xs, sep, i + 1)] == sep
  {
    var init := xs[..|xs| - 1];
    var j := Join(init, sep);
    var last := xs[|xs| - 1];
    assert Join(xs, sep) == j + sep + last;
    assert Offset(xs, sep, i + 1) == Offset(xs, sep, i) + |xs[i]| + |sep|;
    OffsetOfPrefix(xs, sep, |xs| - 1, i);
    assert init[i] == xs[i];
    if i + 1 < |xs| - 1 {
      JoinHoldsSeparator(init, sep, i);
      OffsetOfPrefix(xs, sep, |xs| - 1, i + 1);
      assert j[Offset(xs, sep, i) + |xs[i]|..Offset(xs, sep, i) + |xs[i]| + |sep|] == sep;
      FoundBeforeSeparator(j, sep, last, Offset(xs, sep, i) + |xs[i]|, sep);
    } else {
      JoinLength(init, sep);
      OffsetOfPrefix(xs, sep, |xs| - 1, i + 1);
      assert |j| == Offset(xs, sep, i) + |xs[i]|;
      SeparatorAfterPrefix(j, sep, last);
    }
  }

  lemma SeparatorAfterPrefix(j: string, sep: string, last: string)
    ensures (j + sep + last)[|j|..|j| + |sep|] == sep
  {
    assert forall u :: |j| <= u < |j| + |sep| ==> (j + sep + last)[u] == sep[u - |j|];
  }

  lemma FoundAfterSeparator(j: string, sep: string, last: string)
    ensures (j + sep + last)[|j| + |sep|..|j| + |sep| + |last|] == last
  {
    SliceOfSecond(j + sep, last, 0, |last|);
    assert last[0..|last|] == last;
  }

  /** Splits `s` at the last occurrence of `c`: the text before it and the text after it. */
  function SplitLast(s: string, c: char): (r: Option<(string, string)>)
    ensures r.None? <==> c !in s
    ensures r.Some? ==> s == r.value.0 + [c] + r.value.1 && c !in r.value.1
  {
    if |s| == 0 then None
    else if s[|s| - 1] == c then
      assert s == s[..|s| - 1] + [c] + "";
      Some((s[..|s| - 1], ""))
    else
      var init := s[..|s| - 1];
      assert s == init + [s[|s| - 1]];
      match SplitLast(init, c)
      case None => None
      case Some(parts) => Some((parts.0, parts.1 + [s[|s| - 1]]))
  }

  /** Splitting at the last `c` recovers both halves when the tail holds no `c`. */
  lemma {:induction false} SplitLastJoined(a: string, b: string, c: char)
    requires c !in b
    ensures SplitLast(a + [c] + b, c) == Some((a, b))
  {
    var s := a + [c] + b;
    if b == [] {
      assert s[..|s| - 1] == a;
    } else {
      var binit := b[..|b| - 1];
      assert s[..|s| - 1] == a + [c] + binit;
      assert binit + [b[|b| - 1]] == b;
      SplitLastJoined(a, binit, c);
    }
  }

  /** True when `s` begins with `p`. */
  predicate StartsWith(s: string, p: string) {
    |p| <= |s| && s[..|p|] == p
  }
}

=== FILE: TurnProperties.dfy ===
/** What one request does to the session store and what it answers. */
module TurnProperties {
  import opened Wrappers
  import opened Json
  import opened Replies
  import opened InvoiceIds
  import opened Sessions
  import opened Prompts
  import opened Dialog

  /** Every request keeps every stored session well formed; in particular answers count equals the question index. */
  lemma TurnPreservesValidStore(store: Store, sessionId: Option<string>, transcript: string, env: Env, reply: Reply, closing: Reply)
    requires ValidStore(store)
    ensures ValidStore(Turn(store, sessionId, transcript, env, reply, closing).store)
  {
    var key := EffectiveKey(sessionId, env.freshKey);
    var r := Turn(store, sessionId, transcript, env, reply, closing);
    if key in r.store {
      var session := Lookup(store, key, env);
      match Classify(reply)
      case Err(_) =>
      case Ok(Invoice(_)) =>
      case Ok(Questions(list)) =>
        var s := Record(session, transcript, list);
        assert r.store[key] == s;
        if key in store {
          assert StoredSession(store[key]);
        }
    }
  }

  /**
   A reply that is not JSON, empty, untyped, a questions reply without a
   `data.questions` array, or of another type is answered with that error
   and changes no session.
   */
  lemma RejectedReplyKeepsStore(store: Store, sessionId: Option<string>, transcript: string, env: Env, reply: Reply, closing: Reply)
    requires Classify(reply).Err?
    ensures var r := Turn(store, sessionId, transcript, env, reply, closing);
            r.store == store && r.response == Failed(Classify(reply).error) && |r.prompts| == 1
  {
  }

  /** An invoice reply, in any phase, answers with its `data` and removes the key (a no-op for a key never stored). */
  lemma InvoiceReplyRemovesKey(store: Store, sessionId: Option<string>, transcript: string, env: Env, reply: Reply, closing: Reply)
    requires Classify(reply).Ok? && Classify(reply).value.Invoice?
    ensures var r := Turn(store, sessionId, transcript, env, reply, closing);
            var key := EffectiveKey(sessionId, env.freshKey);
            && r.response == InvoiceReady(Classify(reply).value.data)
            && key !in r.store
            && (key !in store ==> r.store == store)
            && r.store == store - {key}
  {
  }

  /**
   After a questions reply, finalisation (a second model call) runs exactly
   when the question index has reached the length of the question list.
   */
  lemma FinalisationReachedWhenExhausted(store: Store, sessionId: Option<string>, transcript: string, env: Env, reply: Reply, closing: Reply)
    requires Classify(reply).Ok? && Classify(reply).value.Questions?
    ensures var s := Recorded(store, sessionId, transcript, env, Classify(reply).value.list);
            |Turn(store, sessionId, transcript, env, reply, closing).prompts| == 2 <==> s.currentQuestionIndex >= |s.questions|
  {
  }

  /**
   Finalisation succeeds exactly when the closing reply is an object typed
   "invoice"; only then is the key deleted. A failed finalisation keeps a
   stored session, with the answer just recorded, and leaves an unstored one
   out of the store.
   */
  lemma FinalisationOutcome(store: Store, sessionId: Option<string>, transcript: string, env: Env, reply: Reply, closing: Reply)
    requires |Turn(store, sessionId, transcript, env, reply, closing).prompts| == 2
    ensures Classify(reply).Ok? && Classify(reply).value.Questions?
    ensures var r := Turn(store, sessionId, transcript, env, reply, closing);
            var key := EffectiveKey(sessionId, env.freshKey);
            var s := Recorded(store, sessionId, transcript, env, Classify(reply).value.list);
            && r.prompts[1] == FinalPrompt(s, env.utcDate, TimeWindow(env.clock.hour))
            && (r.response.InvoiceReady? <==> closing.Parsed? && closing.value.Object? && Get(closing.value, "type") == Some(Str("invoice")))
            && (r.response.InvoiceReady? ==> r.response.data == Get(closing.value, "data") && r.store == store - {key})
            && (!r.response.InvoiceReady? ==>
                  && r.response == Failed(Finalise(closing).error)
                  && r.store == (if key in store then store[key := s] else store))
  {
  }

  /** An empty question list on a first recording goes straight to finalisation and never stores the session. */
  lemma EmptyQuestionListFinalisesAtOnce(store: Store, sessionId: Option<string>, transcript: string, env: Env, reply: Reply, closing: Reply)
    requires EffectiveKey(sessionId, env.freshKey) !in store
    requires Classify(reply) == Ok(Questions([]))
    ensures var r := Turn(store, sessionId, transcript, env, reply, closing);
            |r.prompts| == 2 && r.store == store && !r.response.WaitingForInput?
  {
    var key := EffectiveKey(sessionId, env.freshKey);
    assert store - {key} == store;
  }

  /**
   A question is only ever asked from the stored list: the answer names the
   key, the question at the session's index, its 1-based number and the list
   length, and the session is stored.
   */
  lemma WaitingForInputReportsStoredQuestion(store: Store, sessionId: Option<string>, transcript: string, env: Env, reply: Reply, closing: Reply)
    requires ValidStore(store)
    requires Turn(store, sessionId, transcript, env, reply, closing).response.WaitingForInput?
    ensures var r := Turn(store, sessionId, transcript, env, reply, closing);
            var w := r.response;
            var key := EffectiveKey(sessionId, env.freshKey);
            && w.sessionId == key && key in r.store
            && 1 <= w.questionNumber <= w.totalQuestions
            && w.totalQuestions == |w.questions|
            && w.questions == r.store[key].questions
            && w.questionNumber == r.store[key].currentQuestionIndex + 1 == |r.store[key].answers| + 1
            && w.currentQuestion == w.questions[w.questionNumber - 1]
  {
    TurnPreservesValidStore(store, sessionId, transcript, env, reply, closing);
  }

  /**
   A new key that gets a question is stored with the clock's invoice id, the
   transcript as the fixed context, the model's list, and no answers yet.
   */
  lemma FreshSessionStart(store: Store, sessionId: Option<string>, transcript: string, env: Env, reply: Reply, closing: Reply)
    requires EffectiveKey(sessionId, env.freshKey) !in store
    requires Turn(store, sessionId, transcript, env, reply, closing).response.WaitingForInput?
    ensures Classify(reply).Ok? && Classify(reply).value.Questions?
    ensures var r := Turn(store, sessionId, transcript, env, reply, closing);
            var key := EffectiveKey(sessionId, env.freshKey);
            var list := Classify(reply).value.list;
            && r.store[key] == Session(InvoiceId(env.clock, env.random), transcript, 0, [], false, list)
            && r.response.questionNumber == 1
            && r.prompts == [WithValues(transcript, InvoiceId(env.clock, env.random), env.utcDate, TimeWindow(env.clock.hour))]
  {
  }

  /**
   Once a session is stored, its question list, fixed context and invoice id
   never change, and each request leaves its answers as they were or adds
   exactly the transcript at the end.
   */
  lemma StoredSessionFrozen(store: Store, sessionId: Option<string>, transcript: string, env: Env, reply: Reply, closing: Reply)
    requires EffectiveKey(sessionId, env.freshKey) in store
    requires !store[EffectiveKey(sessionId, env.freshKey)].isFirstRecording
    ensures var r := Turn(store, sessionId, transcript, env, reply, closing);
            var key := EffectiveKey(sessionId, env.freshKey);
            var before := store[key];
            key in r.store ==>
              var after := r.store[key];
              && after.questions == before.questions
              && after.previousTranscript == before.previousTranscript
              && after.invoiceId == before.invoiceId
              && !after.isFirstRecording
              && (|| after == before
                  || (after.answers == before.answers + [transcript] && after.currentQuestionIndex == before.currentQuestionIndex + 1))
  {
  }

  /** Questions sent on later turns are ignored: which list the model returns makes no difference. */
  lemma LaterQuestionListsIgnored(store: Store, sessionId: Option<string>, transcript: string, env: Env, reply1: Reply, reply2: Reply, closing: Reply)
    requires EffectiveKey(sessionId, env.freshKey) in store
    requires !store[EffectiveKey(sessionId, env.freshKey)].isFirstRecording
    requires Classify(reply1).Ok? && Classify(reply1).value.Questions?
    requires Classify(reply2).Ok? && Classify(reply2).value.Questions?
    ensures Turn(store, sessionId, transcript, env, reply1, closing) == Turn(store, sessionId, transcript, env, reply2, closing)
  {
  }

  /** No request changes the invoice id of a session that stays in the store. */
  lemma InvoiceIdNeverChanges(store: Store, sessionId: Option<string>, transcript: string, env: Env, reply: Reply, closing: Reply, k: string)
    requires k in store
    requires k in Turn(store, sessionId, transcript, env, reply, closing).store
    ensures Turn(store, sessionId, transcript, env, reply, closing).store[k].invoiceId == store[k].invoiceId
  {
  }

  /** The closing reply matters only when finalisation runs. */
  lemma ClosingIgnoredWithoutFinalisation(store: Store, sessionId: Option<string>, transcript: string, env: Env, reply: Reply, closing1: Reply, closing2: Reply)
    requires |Turn(store, sessionId, transcript, env, reply, closing1).prompts| == 1
    ensures Turn(store, sessionId, transcript, env, reply, closing1) == Turn(store, sessionId, transcript, env, reply, closing2)
  {
  }

  /**
   Every prompt of a request carries the session's invoice id, the UTC date
   and the time window in its closing block; the turn's prompt body is the
   transcript, placed after the fixed context on later turns.
   */
  lemma PromptsCarrySessionValues(store: Store, sessionId: Option<string>, transcript: string, env: Env, reply: Reply, closing: Reply)
    requires ValidStore(store)
    requires '\n' !in env.utcDate
    ensures var r := Turn(store, sessionId, transcript, env, reply, closing);
            var s := SessionOf(store, sessionId, env);
            && ParsePrompt(r.prompts[0]) == Some(PromptParts(TurnBody(s, transcript), s.invoiceId, env.utcDate, TimeWindow(env.clock.hour)))
            && (|r.prompts| == 2 ==>
                  && Classify(reply).Ok? && Classify(reply).value.Questions?
                  && ParsePrompt(r.prompts[1])
                     == Some(PromptParts(FinalBody(Recorded(store, sessionId, transcript, env, Classify(reply).value.list)),
                                         s.invoiceId, env.utcDate, TimeWindow(env.clock.hour))))
  {
    var r := Turn(store, sessionId, transcript, env, reply, closing);
    var s := SessionOf(store, sessionId, env);
    var window := TimeWindow(env.clock.hour);
    assert '\n' !in s.invoiceId;
    TurnPromptSent(store, sessionId, transcript, env, reply, closing);
    TurnPromptParses(s, transcript, env.utcDate, window);
    if |r.prompts| == 2 {
      FinalisationOutcome(store, sessionId, transcript, env, reply, closing);
      var f := Recorded(store, sessionId, transcript, env, Classify(reply).value.list);
      assert f.invoiceId == s.invoiceId;
      FinalPromptParses(f, env.utcDate, window);
    }
  }

  /** The first prompt of every turn is the turn's prompt for the session it works on. */
  lemma TurnPromptSent(store: Store, sessionId: Option<string>, transcript: string, env: Env, reply: Reply, closing: Reply)
    ensures Turn(store, sessionId, transcript, env, reply, closing).prompts[0]
         == TurnPrompt(SessionOf(store, sessionId, env), transcript, env.utcDate, TimeWindow(env.clock.hour))
  {
    var session := SessionOf(store, sessionId, env);
    match Classify(reply)
    case Err(_) =>
    case Ok(Invoice(_)) =>
    case Ok(Questions(list)) =>
      var s := Record(session, transcript, list);
      if s.currentQuestionIndex >= |s.questions| {
      } else {
      }
  }

  /**
   A session whose questions are used up never asks again: a retry after a
   failed finalisation goes straight back to finalisation.
   */
  lemma ExhaustedSessionNeverAsks(store: Store, sessionId: Option<string>, transcript: string, env: Env, reply: Reply, closing: Reply)
    requires EffectiveKey(sessionId, env.freshKey) in store
    requires var s := store[EffectiveKey(sessionId, env.freshKey)]; !s.isFirstRecording && s.currentQuestionIndex >= |s.questions|
    ensures !Turn(store, sessionId, transcript, env, reply, closing).response.WaitingForInput?
  {
  }

  /**
   Each failed retry of finalisation records one more answer, so the index
   grows past the number of questions.
   */
  lemma FailedRetryPassesQuestionCount(store: Store, sessionId: Option<string>, transcript: string, env: Env, reply: Reply, closing: Reply)
    requires EffectiveKey(sessionId, env.freshKey) in store
    requires var s := store[EffectiveKey(sessionId, env.freshKey)]; !s.isFirstRecording && s.currentQuestionIndex >= |s.questions|
    requires Classify(reply).Ok? && Classify(reply).value.Questions?
    requires Finalise(closing).Err?
    ensures var key := EffectiveKey(sessionId, env.freshKey);
            var r := Turn(store, sessionId, transcript, env, reply, closing);
            key in r.store && r.store[key].currentQuestionIndex == store[key].currentQuestionIndex + 1 > |r.store[key].questions|
  {
  }

  /** After an invoice the key is free: the next request with it starts over with a new invoice id. */
  lemma CompletedKeyStartsOver(store: Store, key: string, transcript: string, env: Env, reply: Reply, closing: Reply, next: Env)
    requires key != ""
    requires Turn(store, Some(key), transcript, env, reply, closing).response.InvoiceReady?
    ensures SessionOf(Turn(store, Some(key), transcript, env, reply, closing).store, Some(key), next)
            == FreshSession(InvoiceId(next.clock, next.random))
  {
  }
}

=== FILE: Wrappers.dfy ===
/** Optional values and results with an error, used throughout the model. */
module Wrappers {

  /** `None` plays the part of JavaScript's `undefined` where a value may be absent. */
  datatype Option<+T> = None | Some(value: T)

  /** The outcome of a step that can fail with an error of type `E`. */
  datatype Result<+T, +E> = Ok(value: T) | Err(error: E)
}
